=== FILE: README.md ===
# paatr App record — a Dafny model

paatr is a small platform-as-a-service control plane. Its `App` record
(`paatr/models.py`) is the application registry entry: a name, a description,
an owner, timestamps, a soft-delete flag, a repository reference and ids.
Building an `App` validates it:

- the name must fully match `^[a-zA-Z0-9_-]{3,20}$`;
- the description may be at most 100 characters;
- the name is stored lower-cased;
- a new app (no `app_id`) is refused when its lower-cased name is already stored.

The record also flattens to an eight-key dictionary (`to_dict`) and is rebuilt
from one (`from_dict`).

This project models that record as an immutable datatype. The constructor is a
pure function returning `Result<App, Error>`.

- The database lookup `App.get_by("name", name)` becomes a set `taken` of stored names.
- `uuid4()` becomes a `FreshId` parameter. The two `datetime.now().isoformat()` calls become a `Clock`
  of two separate `Timestamp` readings, one for `created_at` and one for `updated_at`. All are non-empty strings.
- `description` may be `None`, as the HTTP endpoint passes it. The length check then fails the way
  Python's `len(None)` does, after the name check.
- Python's truthiness tests (`if not app_id`, `app_id or uuid4()`, `created_at or now`)
  treat an empty string like `None`. The model does the same through `Truthy`.

Modules:

- `Results` (`results.dfy`): `Option` and `Result`.
- `Ascii` (`ascii.dfy`): ASCII character classes, lower-casing and case-insensitive equality.
- `NamePattern` (`name_pattern.dfy`): `NAME_REGEX` as an anchored bounded-repetition matcher.
  It is proved equal to its declarative reading, `ValidName`.
- `Values` (`values.dfy`): the values a dictionary form of the record holds.
- `Models` (`models.dfy`): `App`, the constructor `NewApp`, `ToDict` and `FromDict`.
- `AppLemmas` (`app_lemmas.dfy`): round trip, case-insensitive uniqueness, defaults and key handling.

## Model

| member | source | states |
|---|---|---|
| `NamePattern.MatchRepeatMeaning` | paatr/models.py:9 | the matcher for `C{lo,hi}` accepts exactly the strings of length lo..hi whose every character is in `[a-zA-Z0-9_-]` |
| `NamePattern.FullMatch` | paatr/models.py:127-129 | `valid_name` holds exactly when the name has 3 to 20 characters, each an ASCII letter, digit, `_` or `-` |
| `NamePattern.ValidityIgnoresCase` | paatr/models.py:38 | lower-casing keeps a name's length, and a name is valid exactly when its lower-case form is valid |
| `Ascii.Lower` | paatr/models.py:38 | lower-casing keeps the length, maps each character by itself, and leaves no upper-case ASCII letter |
| `Ascii.LowerFixesLowerCase` | paatr/models.py:38 | a string is unchanged by lower-casing exactly when it has no upper-case letter; lower-casing is idempotent |
| `Ascii.EqualIgnoringCaseIffSameLower` | paatr/models.py:38-42 | two names are equal up to letter case exactly when their lower-case forms are equal |
| `Models.NewApp` | paatr/models.py:14-52 | checks run in order: invalid name, then a `None` description (`len` fails), then description over 100, then name taken (new apps only); each error occurs exactly under its condition; on success the record is well formed, the name is the lower-cased input, a truthy `app_id` is kept as given and otherwise a generated id holding the fresh uuid is used, a missing `created_at`/`updated_at` takes its own clock reading, the other supplied fields are stored unchanged |
| `Models.ToDict` | paatr/models.py:110-120 | the dictionary has exactly the keys app_id, user_id, name, description, created_at, updated_at, deleted and id, and no `repo` |
| `Models.MissingKeys` | paatr/models.py:122-125 | the required keys absent from the dictionary, each once and in parameter order; empty exactly when all are present |
| `Models.FromDict` | paatr/models.py:122-125 | a `cls` key, then a `self` key, fails as a second value for that parameter; otherwise it fails with a missing-arguments error exactly when user_id, name or description is absent, naming exactly those; any record it builds is well formed |
| `AppLemmas.FromDictBinds` | paatr/models.py:122-125 | with no `cls` or `self` key and the required keys present, `from_dict` returns what the constructor returns on the bound arguments |
| `AppLemmas.FromDictIsConstructor` | paatr/models.py:122-125 | for every argument list, `from_dict` of its keyword dictionary returns exactly what the constructor call returns, error or record |
| `AppLemmas.RoundTrip` | paatr/models.py:110-125 | rebuilding any well-formed record from its dictionary succeeds whatever names are taken and gives back the same fields, with the id as the string `to_dict` wrote and `repo` back at `{}`; a supplied id comes back equal |
| `AppLemmas.DictRoundTrip` | paatr/models.py:110-125 | flattening, rebuilding and flattening again gives the same dictionary |
| `AppLemmas.ConstructedRoundTrip` | paatr/models.py:44-52 | every record the constructor returns survives the round trip: a supplied `app_id` comes back equal, a generated `UUID` comes back as its string form |
| `AppLemmas.NameTakenIffCaseInsensitiveClash` | paatr/models.py:38-42 | when stored names are lower-case, a new app is refused as taken exactly when a stored name equals its name up to letter case |
| `AppLemmas.CaseVariantRejected` | paatr/models.py:38-42 | after an app is stored, a new app whose name differs only in letter case is refused with "Name already taken" |
| `AppLemmas.SuppliedIdSkipsUniqueness` | paatr/models.py:40-44 | with a truthy `app_id` the result does not depend on the taken names or the fresh id, fails only on name or description, and keeps that id as given |
| `AppLemmas.DefaultsApplied` | paatr/models.py:14-15 | with only the required arguments: a generated id from the fresh uuid, each timestamp from its own clock reading, not deleted, empty repo, no row id |
| `AppLemmas.DescriptionLimitInclusive` | paatr/models.py:35-36 | for a valid name and a string description, 100 characters pass the length check and 101 are refused |
| `AppLemmas.OnlyParamKeysMatter` | paatr/models.py:122-125 | `from_dict` depends only on the keys naming a parameter of `from_dict` (`cls`, line 123) or of the constructor (`self` and the nine fields, lines 14-15) |
| `AppLemmas.ExtraKeysIgnored` | paatr/models.py:14-15 | keys naming no parameter (not `cls`, `self` or a field) are swallowed by `**kwargs` and change nothing |
| `AppLemmas.ExampleCaseCollision` | paatr/models.py:38-42 | "MyApp" is refused when "myapp" is stored, and is stored as "myapp" beside "other" |
| `AppLemmas.ExampleInvalidNames` | paatr/models.py:32-33 | "my app" and "ab" are refused with "Invalid name" |
| `AppLemmas.ExampleDescriptionNone` | paatr/models.py:32-36 | a `None` description fails at the length check for a valid name, while an invalid name is still reported first |
| `AppLemmas.ExampleBoundKeysRefused` | paatr/models.py:122-125 | a dictionary with a `self` key, or with a `cls` key, is refused as a second value for that parameter |
| `AppLemmas.ExampleFalsyIdRunsLookup` | paatr/models.py:40-42 | an `app_id` of `0` is falsy, so the name lookup runs and a taken name is refused |

## Left out

- `get_all`, `get`, `get_by`, `register`, `update`, `delete` (paatr/models.py:54-108): calls to the external Supabase client. Only the name lookup in the constructor enters the model, as the set `taken`.
- `uuid4()` and `datetime.now()` (paatr/models.py:44, 48-49): nondeterministic. They are parameters, typed as non-empty strings, with one clock reading for each of the two calls. Nothing relates the two readings, such as one coming later than the other.
- `__repr__` (paatr/models.py:131-132): formatting through `pprint`.
- `FromDict`: a field value of a kind the typed record cannot hold fails with `WrongType` while the arguments are bound, in parameter order. Python accepts any value here. `user_id`, `deleted`, `id` and `repo` are stored as given. For `app_id`, `created_at` and `updated_at`, the model does what Python does with a falsy value of any kind (`None`, `False`, `0`, `""`, `{}`): it is replaced by its default, and a falsy `app_id` also runs the name lookup. A truthy non-string value of these three is refused, where Python would store it. For `name`, Python also raises a `TypeError` from the regex, but only when that check is reached. A description of `None` is modelled where Python fails, after the name check. A description of another non-string kind is refused while binding. In Python an integer fails only at `len`, and a list or dict would pass `len`.
- `ToDict`: a generated `app_id` is a `uuid.UUID` object in Python. The model keeps it apart from a supplied id (`Generated` versus `Given`), stores its string form and writes that string, as `str(app_id)` does. `str(user_id)` is the identity here because `user_id` is a string. A `user_id` of `None` would print as `"None"` in Python; that case is not modelled.
- `Ascii.Lower`: lower-cases ASCII letters only. Python's `str.lower` is Unicode-wide. It is applied only to names that already matched the ASCII pattern, where the two agree.
- The shared mutable default `repo={}`: the model is immutable, so aliasing between instances cannot be observed.
- The class attribute `table = "paatr-app"`: only used by the database calls.
- The HTTP routing layer, error handlers, websocket loop, configuration and exception classes are not part of this model.
- The build pipeline, build log store, container lifecycle manager and subdomain registrar are not implemented in paatr/models.py and are not part of this model.

=== FILE: app_lemmas.dfy ===
/** Properties of the App constructor and its dictionary form that relate
    several calls or hold for every input. */
module AppLemmas {
  import opened Results
  import opened Ascii
  import opened NamePattern
  import opened Values
  import opened Models

  /** Every parameter name of `from_dict` and of the constructor; any other key
      is swallowed by `**kwargs`. */
  const ParamKeys: set<string> :=
    {"cls", "self", "app_id", "user_id", "name", "description", "created_at", "updated_at",
     "deleted", "id", "repo"}

  function DecodedExport(a: App): (p: Params) {
    Params(a.userId, a.name, Some(a.description), Some(a.createdAt), Some(a.updatedAt),
           a.deleted, Some(IdText(a.appId)), map[], a.id)
  }

  /** The record `from_dict` rebuilds from `to_dict` of `a`: the same fields,
      except that the id is now the string `to_dict` wrote and `repo`, which is
      not exported, is back at `{}`. */
  function Restored(a: App): (b: App) {
    a.(appId := Given(IdText(a.appId)), repo := map[])
  }

  /** Rebuilding a well-formed record from its dictionary always succeeds, with
      no uniqueness lookup (its `app_id` is present), and gives back the same
      exported fields; an id that was supplied as a string comes back equal. */
  lemma RoundTrip(a: App, taken: set<string>, freshId: FreshId, clock: Clock)
    requires WellFormed(a)
    ensures FromDict(ToDict(a), taken, freshId, clock) == Ok(Restored(a))
    ensures a.appId.Given? ==> FromDict(ToDict(a), taken, freshId, clock) == Ok(a.(repo := map[]))
  {
    var d := ToDict(a);
    DecodeExport(a);
    assert "cls" !in d && "self" !in d;
    FromDictBinds(d, DecodedExport(a), taken, freshId, clock);
    LowerFixesLowerCase(a.name);
  }

  /** With nothing bound twice and every required argument present, `from_dict`
      runs the constructor on the bound arguments. */
  lemma FromDictBinds(d: Dict, p: Params, taken: set<string>, freshId: FreshId, clock: Clock)
    requires "cls" !in d && "self" !in d
    requires forall k :: k in RequiredKeys ==> k in d
    requires DecodeParams(d) == Ok(p)
    ensures FromDict(d, taken, freshId, clock) == NewApp(p, taken, freshId, clock)
  {
  }

  /** The arguments `from_dict` binds from an exported record. */
  lemma DecodeExport(a: App)
    ensures forall k :: k in RequiredKeys ==> k in ToDict(a)
    ensures DecodeParams(ToDict(a)) == Ok(DecodedExport(a))
  {
  }

  /** Flattening, rebuilding and flattening again gives the first dictionary back. */
  lemma DictRoundTrip(a: App, taken: set<string>, freshId: FreshId, clock: Clock)
    requires WellFormed(a)
    ensures FromDict(ToDict(a), taken, freshId, clock).Ok?
    ensures ToDict(FromDict(ToDict(a), taken, freshId, clock).value) == ToDict(a)
  {
    RoundTrip(a, taken, freshId, clock);
  }

  /** Any record the constructor returns survives the round trip. A supplied
      id comes back equal; a generated one comes back as its string form. */
  lemma ConstructedRoundTrip(p: Params, taken: set<string>, freshId: FreshId, clock: Clock,
                             taken': set<string>, freshId': FreshId, clock': Clock)
    requires NewApp(p, taken, freshId, clock).Ok?
    ensures var a := NewApp(p, taken, freshId, clock).value;
            FromDict(ToDict(a), taken', freshId', clock') == Ok(Restored(a))
    ensures var a := NewApp(p, taken, freshId, clock).value;
            Truthy(p.appId) ==> FromDict(ToDict(a), taken', freshId', clock') == Ok(a.(repo := map[]))
    ensures var a := NewApp(p, taken, freshId, clock).value;
            !Truthy(p.appId) ==>
              (a.appId == Generated(freshId)
               && FromDict(ToDict(a), taken', freshId', clock').value.appId == Given(freshId))
  {
    RoundTrip(NewApp(p, taken, freshId, clock).value, taken', freshId', clock');
  }

  /** Stored names are lower-case, so a new app is refused as taken exactly when
      some stored name equals its name up to letter case. */
  lemma NameTakenIffCaseInsensitiveClash(p: Params, taken: set<string>, freshId: FreshId, clock: Clock)
    requires forall t :: t in taken ==> IsLowerCase(t)
    ensures NewApp(p, taken, freshId, clock) == Err(NameTaken) <==>
              && ValidName(p.name)
              && p.description.Some?
              && |p.description.value| <= MaxDescriptionLength
              && !Truthy(p.appId)
              && exists t :: t in taken && EqualIgnoringCase(t, p.name)
  {
    var n := Lower(p.name);
    if n in taken {
      EqualIgnoringCaseIffSameLower(n, p.name);
      LowerFixesLowerCase(p.name);
      assert EqualIgnoringCase(n, p.name);
    }
    if t :| t in taken && EqualIgnoringCase(t, p.name) {
      EqualIgnoringCaseIffSameLower(t, p.name);
      LowerFixesLowerCase(t);
      assert n == t;
    }
  }

  /** Once an app is registered, a new app whose name differs from it only in
      letter case is refused. */
  lemma CaseVariantRejected(p: Params, other: string, taken: set<string>, freshId: FreshId,
                            freshId': FreshId, clock: Clock, clock': Clock)
    requires NewApp(p, taken, freshId, clock).Ok?
    requires !Truthy(p.appId)
    requires EqualIgnoringCase(other, p.name)
    ensures NewApp(p.(name := other), taken + {NewApp(p, taken, freshId, clock).value.name}, freshId', clock')
            == Err(NameTaken)
  {
    EqualIgnoringCaseIffSameLower(other, p.name);
    ValidityIgnoresCase(other);
    ValidityIgnoresCase(p.name);
  }

  /** With an `app_id` supplied the taken names and the fresh id are never
      consulted: construction fails only on the name or the description, and
      otherwise keeps the supplied id. */
  lemma SuppliedIdSkipsUniqueness(p: Params, taken: set<string>, taken': set<string>,
                                  freshId: FreshId, freshId': FreshId, clock: Clock)
    requires Truthy(p.appId)
    ensures NewApp(p, taken, freshId, clock) == NewApp(p, taken', freshId', clock)
    ensures NewApp(p, taken, freshId, clock).Ok? <==>
              ValidName(p.name) && p.description.Some? && |p.description.value| <= MaxDescriptionLength
    ensures NewApp(p, taken, freshId, clock).Ok? ==> NewApp(p, taken, freshId, clock).value.appId == Given(p.appId.value)
  {
  }

  /** Supplying only the required arguments: a fresh id, each timestamp taken
      from its own clock reading, not deleted, an empty repository and no row id. */
  lemma DefaultsApplied(userId: string, name: string, description: Option<string>,
                        taken: set<string>, freshId: FreshId, clock: Clock)
    requires NewApp(DefaultParams(userId, name, description), taken, freshId, clock).Ok?
    ensures var a := NewApp(DefaultParams(userId, name, description), taken, freshId, clock).value;
            && a.appId == Generated(freshId)
            && a.createdAt == clock.createdNow && a.updatedAt == clock.updatedNow
            && !a.deleted
            && a.repo == map[]
            && a.id == None
            && a.userId == userId && description == Some(a.description)
  {
  }

  /** The description limit is inclusive: 100 characters pass, 101 do not. */
  lemma DescriptionLimitInclusive(p: Params, taken: set<string>, freshId: FreshId, clock: Clock)
    requires ValidName(p.name) && p.description.Some?
    ensures |p.description.value| == MaxDescriptionLength ==> NewApp(p, taken, freshId, clock) != Err(DescriptionTooLong)
    ensures |p.description.value| == MaxDescriptionLength + 1 ==> NewApp(p, taken, freshId, clock) == Err(DescriptionTooLong)
  {
  }

  lemma {:induction false} MissingKeysAgree(d: Dict, d': Dict, keys: seq<string>)
    requires Distinct(keys)
    requires forall k :: k in keys ==> (k in d <==> k in d')
    ensures MissingKeys(d, keys) == MissingKeys(d', keys)
  {
    if keys != [] {
      MissingKeysAgree(d, d', keys[1..]);
    }
  }

  /** `d` and `d'` hold the same entry, or none, under `k`. */
  predicate Agree(d: Dict, d': Dict, k: string) {
    (k in d <==> k in d') && (k in d ==> d[k] == d'[k])
  }

  lemma DecodeAgree(d: Dict, d': Dict)
    requires forall k :: k in RequiredKeys ==> k in d
    requires forall k :: k in RequiredKeys ==> k in d'
    requires Agree(d, d', "user_id") && Agree(d, d', "name") && Agree(d, d', "description")
    requires Agree(d, d', "created_at") && Agree(d, d', "updated_at") && Agree(d, d', "deleted")
    requires Agree(d, d', "app_id") && Agree(d, d', "repo") && Agree(d, d', "id")
    ensures DecodeParams(d) == DecodeParams(d')
  {
    assert StrArg(d, "user_id") == StrArg(d', "user_id");
    assert StrArg(d, "name") == StrArg(d', "name");
    assert OptStrArg(d, "description") == OptStrArg(d', "description");
    assert TruthTestedArg(d, "created_at") == TruthTestedArg(d', "created_at");
    assert TruthTestedArg(d, "updated_at") == TruthTestedArg(d', "updated_at");
    assert DeletedArg(d) == DeletedArg(d');
    assert TruthTestedArg(d, "app_id") == TruthTestedArg(d', "app_id");
    assert RepoArg(d) == RepoArg(d');
    assert IdArg(d) == IdArg(d');
  }

  /** `from_dict` reads only the constructor's parameters: two dictionaries
      that agree on those keys give the same result. */
  lemma OnlyParamKeysMatter(d: Dict, d': Dict, taken: set<string>, freshId: FreshId, clock: Clock)
    requires forall k :: k in ParamKeys ==> Agree(d, d', k)
    ensures FromDict(d, taken, freshId, clock) == FromDict(d', taken, freshId, clock)
  {
    assert Agree(d, d', "cls") && Agree(d, d', "self");
    if "cls" !in d && "self" !in d {
      assert forall k :: k in RequiredKeys ==> k in ParamKeys;
      MissingKeysAgree(d, d', RequiredKeys);
      if MissingKeys(d, RequiredKeys) == [] {
        DecodeAgree(d, d');
      }
    }
  }

  /** Extra keys that name no parameter are ignored. */
  lemma ExtraKeysIgnored(d: Dict, extra: Dict, taken: set<string>, freshId: FreshId, clock: Clock)
    requires forall k :: k in extra ==> k !in ParamKeys
    ensures FromDict(d + extra, taken, freshId, clock) == FromDict(d, taken, freshId, clock)
  {
    assert forall k :: k in ParamKeys ==> Agree(d + extra, d, k);
    OnlyParamKeysMatter(d + extra, d, taken, freshId, clock);
  }

  /** "MyApp" is refused once "myapp" is stored, and accepted beside "other". */
  lemma ExampleCaseCollision(freshId: FreshId, clock: Clock)
    ensures NewApp(DefaultParams("u1", "MyApp", Some("demo")), {"myapp"}, freshId, clock) == Err(NameTaken)
    ensures NewApp(DefaultParams("u1", "MyApp", Some("demo")), {"other"}, freshId, clock).Ok?
    ensures NewApp(DefaultParams("u1", "MyApp", Some("demo")), {"other"}, freshId, clock).value.name == "myapp"
  {
    assert ValidName("MyApp");
    assert Lower("MyApp") == "myapp";
  }

  /** A name with a space or of two characters is refused before anything else. */
  lemma ExampleInvalidNames(taken: set<string>, freshId: FreshId, clock: Clock)
    ensures NewApp(DefaultParams("u1", "my app", Some("demo")), taken, freshId, clock) == Err(InvalidName)
    ensures NewApp(DefaultParams("u1", "ab", Some("demo")), taken, freshId, clock) == Err(InvalidName)
  {
  }

  /** A constructor call with `p` given as keyword arguments. */
  lemma DecodeParamsDict(p: Params)
    ensures forall k :: k in RequiredKeys ==> k in ParamsDict(p)
    ensures DecodeParams(ParamsDict(p)) == Ok(p)
  {
    var d := ParamsDict(p);
    assert StrArg(d, "user_id") == Ok(p.userId);
    assert StrArg(d, "name") == Ok(p.name);
    assert OptStrArg(d, "description") == Ok(p.description) by {
      match p.description
      case None =>
      case Some(_) =>
    }
    assert TruthTestedArg(d, "created_at") == Ok(p.createdAt) by {
      match p.createdAt
      case None =>
      case Some(_) =>
    }
    assert TruthTestedArg(d, "updated_at") == Ok(p.updatedAt) by {
      match p.updatedAt
      case None =>
      case Some(_) =>
    }
    assert DeletedArg(d) == Ok(p.deleted);
    assert TruthTestedArg(d, "app_id") == Ok(p.appId) by {
      match p.appId
      case None =>
      case Some(_) =>
    }
    assert RepoArg(d) == Ok(p.repo);
    assert IdArg(d) == Ok(p.id) by {
      match p.id
      case None =>
      case Some(_) =>
    }
  }

  /** `from_dict` is the constructor: given the keyword arguments of any call,
      it returns exactly what that call returns, error or record. */
  lemma FromDictIsConstructor(p: Params, taken: set<string>, freshId: FreshId, clock: Clock)
    ensures FromDict(ParamsDict(p), taken, freshId, clock) == NewApp(p, taken, freshId, clock)
  {
    DecodeParamsDict(p);
    assert "cls" !in ParamsDict(p) && "self" !in ParamsDict(p);
    FromDictBinds(ParamsDict(p), p, taken, freshId, clock);
  }

  /** A description of `None` passes binding but fails at the length check,
      which comes after the name check. */
  lemma ExampleDescriptionNone(taken: set<string>, freshId: FreshId, clock: Clock)
    ensures NewApp(DefaultParams("u1", "myapp", None), taken, freshId, clock) == Err(WrongType("description"))
    ensures NewApp(DefaultParams("u1", "ab", None), taken, freshId, clock) == Err(InvalidName)
  {
  }

  /** A dictionary carrying `self` or `cls` is refused before anything else is bound. */
  lemma ExampleBoundKeysRefused(taken: set<string>, freshId: FreshId, clock: Clock)
    ensures FromDict(map["user_id" := Str("u"), "name" := Str("abc"), "description" := Str("d"),
                         "app_id" := Str("x"), "self" := Int(1)], taken, freshId, clock)
            == Err(MultipleValues("self"))
    ensures FromDict(map["cls" := Null], taken, freshId, clock) == Err(MultipleValues("cls"))
  {
  }

  /** A falsy `app_id` of any kind, here `0`, counts as absent: the name lookup
      runs and a taken name is refused. */
  lemma ExampleFalsyIdRunsLookup(freshId: FreshId, clock: Clock)
    ensures FromDict(map["user_id" := Str("u"), "name" := Str("abc"), "description" := Str("d"),
                         "app_id" := Int(0)], {"abc"}, freshId, clock)
            == Err(NameTaken)
  {
    var d := map["user_id" := Str("u"), "name" := Str("abc"), "description" := Str("d"), "app_id" := Int(0)];
    var p := Params("u", "abc", Some("d"), None, None, false, None, map[], None);
    assert StrArg(d, "user_id") == Ok("u");
    assert StrArg(d, "name") == Ok("abc");
    assert OptStrArg(d, "description") == Ok(Some("d"));
    assert TruthTestedArg(d, "created_at") == Ok(None);
    assert TruthTestedArg(d, "updated_at") == Ok(None);
    assert DeletedArg(d) == Ok(false);
    assert TruthTestedArg(d, "app_id") == Ok(None);
    assert RepoArg(d) == Ok(map[]);
    assert IdArg(d) == Ok(None);
    assert DecodeParams(d) == Ok(p);
    assert "cls" !in d && "self" !in d;
    FromDictBinds(d, p, {"abc"}, freshId, clock);
    assert ValidName("abc");
    assert Lower("abc") == "abc";
  }
}

=== FILE: ascii.dfy ===
/** ASCII character classes and case mapping. Python's `str.lower` maps every
    upper-case letter of Unicode; the App model only lower-cases names that
    have already passed the ASCII name pattern, where the two agree. */
module Ascii {

  predicate IsUpper(c: char) {
    'A' <= c <= 'Z'
  }

  predicate IsLowerLetter(c: char) {
    'a' <= c <= 'z'
  }

  predicate IsDigit(c: char) {
    '0' <= c <= '9'
  }

  /** Lower-case one character: upper-case ASCII letters move to their
      lower-case partner, everything else is left alone. */
  function LowerChar(c: char): (d: char)
    ensures !IsUpper(d)
    ensures IsUpper(c) ==> IsLowerLetter(d)
    ensures !IsUpper(c) ==> d == c
  {
    if IsUpper(c) then (c as int + 32) as char else c
  }

  /** No character of `s` is an upper-case ASCII letter. */
  predicate IsLowerCase(s: string) {
    forall i :: 0 <= i < |s| ==> !IsUpper(s[i])
  }

  /** Two strings that differ at most in the case of their ASCII letters. */
  predicate EqualIgnoringCase(a: string, b: string) {
    |a| == |b| && forall i :: 0 <= i < |a| ==> LowerChar(a[i]) == LowerChar(b[i])
  }

  /** The lower-case form of a string, character by character. */
  function Lower(s: string): (r: string)
    ensures |r| == |s|
    ensures forall i :: 0 <= i < |s| ==> r[i] == LowerChar(s[i])
    ensures IsLowerCase(r)
  {
    if s == [] then [] else [LowerChar(s[0])] + Lower(s[1..])
  }

  /** Lower-casing leaves an already lower-case string unchanged, so it is idempotent. */
  lemma LowerFixesLowerCase(s: string)
    ensures IsLowerCase(s) <==> Lower(s) == s
    ensures Lower(Lower(s)) == Lower(s)
  {
  }

  /** Case-insensitive equality is exactly equality of lower-case forms. */
  lemma EqualIgnoringCaseIffSameLower(a: string, b: string)
    ensures EqualIgnoringCase(a, b) <==> Lower(a) == Lower(b)
  {
  }
}

=== FILE: models.dfy ===
/** The App record of paatr/models.py: its validating constructor and its
    flattening to and from a dictionary. The database lookup behind the
    "name already taken" check is the set `taken` of stored names; the
    fresh `uuid4()` and the clock readings are parameters. */
module Models {
  import opened Results
  import opened Ascii
  import opened NamePattern
  import opened Values

  const MaxDescriptionLength: nat := 100

  /** `str(uuid4())`: never empty. */
  type FreshId = s: string | s != [] witness "0"

  /** `datetime.now().isoformat()`: never empty. */
  type Timestamp = s: string | s != [] witness "0"

  /** The two readings of the clock the constructor may take: one for
      `created_at`, one for `updated_at`. */
  datatype Clock = Clock(createdNow: Timestamp, updatedNow: Timestamp)

  datatype Error =
    | InvalidName
    | DescriptionTooLong
    | NameTaken
      // Python's TypeError for required arguments left out, in parameter order
    | MissingArguments(names: seq<string>)
      // Python's TypeError for a keyword that repeats an already bound parameter
    | MultipleValues(key: string)
      // a field whose kind the record cannot hold; for the description this is
      // the TypeError of `len(None)`
    | WrongType(key: string)

  /** The arguments of the constructor; `None` is Python's `None`, which is
      also the default of the optional ones. */
  datatype Params = Params(
    userId: string,
    name: string,
    description: Option<string>,
    createdAt: Option<string>,
    updatedAt: Option<string>,
    deleted: bool,
    appId: Option<string>,
    repo: Dict,
    id: Option<int>)

  /** A constructor call that supplies only the three required arguments. */
  function DefaultParams(userId: string, name: string, description: Option<string>): (p: Params) {
    Params(userId, name, description, None, None, false, None, map[], None)
  }

  /** An app's id: the truthy value the caller supplied, or the `uuid.UUID`
      object the constructor generated. `to_dict` writes either as a string,
      so a generated id comes back from `from_dict` as a supplied string. */
  datatype AppId = Given(text: string) | Generated(uuid: FreshId)

  /** `str(app_id)`. */
  function IdText(id: AppId): (s: string) {
    match id
    case Given(t) => t
    case Generated(u) => u
  }

  datatype App = App(
    appId: AppId,
    userId: string,
    name: string,
    description: string,
    createdAt: string,
    updatedAt: string,
    deleted: bool,
    repo: Dict,
    id: Option<int>)

  /** Python truthiness of an optional string: neither `None` nor empty. */
  predicate Truthy(o: Option<string>) {
    o.Some? && o.value != ""
  }

  /** Python's `x or fallback` on an optional string. */
  function OrElse(o: Option<string>, fallback: string): (r: string) {
    if Truthy(o) then o.value else fallback
  }

  /** What every constructed App satisfies. */
  predicate WellFormed(a: App) {
    && ValidName(a.name)
    && IsLowerCase(a.name)
    && |a.description| <= MaxDescriptionLength
    && IdText(a.appId) != ""
    && a.createdAt != ""
    && a.updatedAt != ""
  }

  /** `App(...)`: validate the name, then the description length, then (for a
      new app only) name uniqueness; store the name lower-cased and fill in
      the defaults. */
  function NewApp(p: Params, taken: set<string>, freshId: FreshId, clock: Clock): (r: Result<App, Error>)
    ensures r == Err(InvalidName) <==> !ValidName(p.name)
    ensures r == Err(WrongType("description")) <==> ValidName(p.name) && p.description.None?
    ensures r == Err(DescriptionTooLong) <==>
              ValidName(p.name) && p.description.Some? && |p.description.value| > MaxDescriptionLength
    ensures r == Err(NameTaken) <==>
              && ValidName(p.name)
              && p.description.Some?
              && |p.description.value| <= MaxDescriptionLength
              && !Truthy(p.appId)
              && Lower(p.name) in taken
    ensures r.Err? ==>
              r.error in {InvalidName, WrongType("description"), DescriptionTooLong, NameTaken}
    ensures r.Ok? ==> WellFormed(r.value)
    ensures r.Ok? ==> r.value.name == Lower(p.name) && EqualIgnoringCase(r.value.name, p.name)
    ensures r.Ok? ==> !Truthy(p.appId) ==> r.value.name !in taken
    ensures r.Ok? ==> r.value.appId == if Truthy(p.appId) then Given(p.appId.value) else Generated(freshId)
    ensures r.Ok? ==> r.value.createdAt == if Truthy(p.createdAt) then p.createdAt.value else clock.createdNow
    ensures r.Ok? ==> r.value.updatedAt == if Truthy(p.updatedAt) then p.updatedAt.value else clock.updatedNow
    ensures r.Ok? ==>
              && r.value.userId == p.userId
              && p.description == Some(r.value.description)
              && r.value.deleted == p.deleted
              && r.value.repo == p.repo
              && r.value.id == p.id
  {
    if !FullMatch(p.name) then
      Err(InvalidName)
    else if p.description.None? then
      Err(WrongType("description"))
    else if |p.description.value| > MaxDescriptionLength then
      Err(DescriptionTooLong)
    else
      var name := Lower(p.name);
      ValidityIgnoresCase(p.name);
      EqualIgnoringCaseIffSameLower(name, p.name);
      LowerFixesLowerCase(p.name);
      if !Truthy(p.appId) && name in taken then
        Err(NameTaken)
      else
        Ok(App(if Truthy(p.appId) then Given(p.appId.value) else Generated(freshId), p.userId, name, p.description.value,
               OrElse(p.createdAt, clock.createdNow), OrElse(p.updatedAt, clock.updatedNow),
               p.deleted, p.repo, p.id))
  }

  /** The keys `to_dict` writes; `repo` is not among them. */
  const ExportedKeys: set<string> :=
    {"app_id", "user_id", "name", "description", "created_at", "updated_at", "deleted", "id"}

  /** The constructor's required positional parameters, in order. */
  const RequiredKeys: seq<string> := ["user_id", "name", "description"]

  function IdValue(id: Option<int>): (v: Value) {
    match id
    case None => Null
    case Some(i) => Int(i)
  }

  function OptStrValue(o: Option<string>): (v: Value) {
    match o
    case None => Null
    case Some(s) => Str(s)
  }

  /** `to_dict`: the record flattened to its eight exported fields. */
  function ToDict(a: App): (d: Dict)
    ensures d.Keys == ExportedKeys
    ensures "repo" !in d
  {
    map["app_id" := Str(IdText(a.appId)),
        "user_id" := Str(a.userId),
        "name" := Str(a.name),
        "description" := Str(a.description),
        "created_at" := Str(a.createdAt),
        "updated_at" := Str(a.updatedAt),
        "deleted" := Bool(a.deleted),
        "id" := IdValue(a.id)]
  }

  /** No key occurs twice: the parameter names of a Python function. */
  predicate Distinct(keys: seq<string>) {
    forall i, j :: 0 <= i < j < |keys| ==> keys[i] != keys[j]
  }

  /** The position of `k` in `keys`. */
  function IndexOf(keys: seq<string>, k: string): (i: nat)
    requires k in keys
    ensures i < |keys| && keys[i] == k
    ensures forall j :: 0 <= j < i ==> keys[j] != k
  {
    if keys[0] == k then 0 else 1 + IndexOf(keys[1..], k)
  }

  /** The keys among `keys` that `d` lacks, each once and in the order of `keys`. */
  function MissingKeys(d: Dict, keys: seq<string>): (m: seq<string>)
    requires Distinct(keys)
    ensures |m| <= |keys|
    ensures forall k :: k in m <==> k in keys && k !in d
    ensures m == [] <==> forall k :: k in keys ==> k in d
    ensures forall i, j :: 0 <= i < j < |m| ==> IndexOf(keys, m[i]) < IndexOf(keys, m[j])
  {
    if keys == [] then []
    else
      var rest := MissingKeys(d, keys[1..]);
      IndexOfTail(keys);
      (if keys[0] in d then [] else [keys[0]]) + rest
  }

  /** In a list of distinct keys, a key after the head sits one place further
      than in the tail. */
  lemma IndexOfTail(keys: seq<string>)
    requires keys != [] && Distinct(keys)
    ensures Distinct(keys[1..])
    ensures forall k :: k in keys[1..] ==> k != keys[0] && IndexOf(keys, k) == 1 + IndexOf(keys[1..], k)
  {
    forall k | k in keys[1..]
      ensures k != keys[0]
    {
      var j :| 0 <= j < |keys[1..]| && keys[1..][j] == k;
      assert keys[j + 1] == k;
    }
  }

  function StrArg(d: Dict, key: string): (r: Result<string, Error>)
    requires key in d
  {
    match d[key]
    case Str(s) => Ok(s)
    case _ => Err(WrongType(key))
  }

  function OptStrArg(d: Dict, key: string): (r: Result<Option<string>, Error>) {
    if key !in d then Ok(None)
    else match d[key]
      case Null => Ok(None)
      case Str(s) => Ok(Some(s))
      case _ => Err(WrongType(key))
  }

  /** An argument the constructor only tests for truthiness before falling
      back to its default (`app_id`, `created_at`, `updated_at`): any falsy
      value reads as `None`. */
  function TruthTestedArg(d: Dict, key: string): (r: Result<Option<string>, Error>)
    ensures key !in d ==> r == Ok(None)
    ensures key in d && d[key].Str? ==> r == Ok(Some(d[key].s))
    ensures key in d && !d[key].Str? && Falsy(d[key]) ==> r == Ok(None)
  {
    if key !in d then Ok(None)
    else match d[key]
      case Str(s) => Ok(Some(s))
      case v => if Falsy(v) then Ok(None) else Err(WrongType(key))
  }

  function DeletedArg(d: Dict): (r: Result<bool, Error>) {
    if "deleted" !in d then Ok(false)
    else match d["deleted"]
      case Bool(b) => Ok(b)
      case _ => Err(WrongType("deleted"))
  }

  function RepoArg(d: Dict): (r: Result<Dict, Error>) {
    if "repo" !in d then Ok(map[])
    else match d["repo"]
      case Obj(m) => Ok(m)
      case _ => Err(WrongType("repo"))
  }

  function IdArg(d: Dict): (r: Result<Option<int>, Error>) {
    if "id" !in d then Ok(None)
    else match d["id"]
      case Null => Ok(None)
      case Int(i) => Ok(Some(i))
      case _ => Err(WrongType("id"))
  }

  /** Bind the keyword arguments of `cls(**kwargs)`, in parameter order. Keys
      that name no parameter are swallowed by `**kwargs`. */
  function DecodeParams(d: Dict): (r: Result<Params, Error>)
    requires forall k :: k in RequiredKeys ==> k in d
  {
    var userId :- StrArg(d, "user_id");
    var name :- StrArg(d, "name");
    var description :- OptStrArg(d, "description");
    var createdAt :- TruthTestedArg(d, "created_at");
    var updatedAt :- TruthTestedArg(d, "updated_at");
    var deleted :- DeletedArg(d);
    var appId :- TruthTestedArg(d, "app_id");
    var repo :- RepoArg(d);
    var id :- IdArg(d);
    Ok(Params(userId, name, description, createdAt, updatedAt, deleted, appId, repo, id))
  }

  /** `from_dict(**d)`: bind `cls` for `from_dict`, then the constructor's
      arguments (`self` is already bound in both calls, so a key of that name
      is a second value for it), then run the constructor. */
  function FromDict(d: Dict, taken: set<string>, freshId: FreshId, clock: Clock): (r: Result<App, Error>)
    ensures r == Err(MultipleValues("cls")) <==> "cls" in d
    ensures r == Err(MultipleValues("self")) <==> "cls" !in d && "self" in d
    ensures r.Err? && r.error.MissingArguments? <==>
              "cls" !in d && "self" !in d && exists k :: k in RequiredKeys && k !in d
    ensures r.Err? && r.error.MissingArguments? ==>
              forall k :: k in r.error.names <==> k in RequiredKeys && k !in d
    ensures r.Ok? ==> WellFormed(r.value)
  {
    if "cls" in d then
      Err(MultipleValues("cls"))
    else if "self" in d then
      Err(MultipleValues("self"))
    else
      var missing := MissingKeys(d, RequiredKeys);
      if missing != [] then
        assert missing[0] in missing;
        Err(MissingArguments(missing))
      else
        var p :- DecodeParams(d);
        NewApp(p, taken, freshId, clock)
  }

  /** The keyword arguments of a constructor call with `p`, as a dictionary. */
  function ParamsDict(p: Params): (d: Dict) {
    map["user_id" := Str(p.userId),
        "name" := Str(p.name),
        "description" := OptStrValue(p.description),
        "created_at" := OptStrValue(p.createdAt),
        "updated_at" := OptStrValue(p.updatedAt),
        "deleted" := Bool(p.deleted),
        "app_id" := OptStrValue(p.appId),
        "repo" := Obj(p.repo),
        "id" := IdValue(p.id)]
  }
}

=== FILE: name_pattern.dfy ===
/** The application-name pattern `^[a-zA-Z0-9_-]{3,20}$`, applied with a full match. */
module NamePattern {
  import opened Ascii

  const MinNameLength: nat := 3
  const MaxNameLength: nat := 20

  /** The character class `[a-zA-Z0-9_-]`. */
  predicate InNameClass(c: char) {
    IsLowerLetter(c) || IsUpper(c) || IsDigit(c) || c == '_' || c == '-'
  }

  /** What a valid name is: 3 to 20 characters, each from the class. */
  predicate ValidName(s: string) {
    MinNameLength <= |s| <= MaxNameLength && forall i :: 0 <= i < |s| ==> InNameClass(s[i])
  }

  /** Anchored matching of the bounded repetition `C{lo,hi}` against all of `s`,
      consuming one class character per step. */
  function MatchRepeat(s: string, lo: nat, hi: nat): (b: bool)
    decreases |s|
  {
    if s == [] then lo == 0
    else hi > 0 && InNameClass(s[0]) && MatchRepeat(s[1..], if lo == 0 then 0 else lo - 1, hi - 1)
  }

  /** The bounded-repetition matcher accepts exactly the strings of the right
      length made of class characters. */
  lemma {:induction false} MatchRepeatMeaning(s: string, lo: nat, hi: nat)
    ensures MatchRepeat(s, lo, hi) <==> lo <= |s| <= hi && forall i :: 0 <= i < |s| ==> InNameClass(s[i])
    decreases |s|
  {
    if s != [] && hi > 0 {
      var lo' := if lo == 0 then 0 else lo - 1;
      MatchRepeatMeaning(s[1..], lo', hi - 1);
      assert forall i :: 1 <= i < |s| ==> s[i] == s[1..][i - 1];
    }
  }

  /** `NAME_REGEX.fullmatch(name)`: the matcher run with the pattern's bounds.
      It agrees with the declarative reading of the pattern. */
  function FullMatch(s: string): (b: bool)
    ensures b <==> ValidName(s)
  {
    MatchRepeatMeaning(s, MinNameLength, MaxNameLength);
    MatchRepeat(s, MinNameLength, MaxNameLength)
  }

  /** Validity does not depend on letter case: a name is valid exactly when its
      lower-case form is, and lower-casing keeps its length. */
  lemma ValidityIgnoresCase(s: string)
    ensures ValidName(Lower(s)) <==> ValidName(s)
    ensures |Lower(s)| == |s|
  {
  }
}

=== FILE: results.dfy ===
/** Optional values and success-or-error results, used in place of Python's
    `None` defaults and raised exceptions. */
module Results {

  /** An argument that may be left at its `None` default. */
  datatype Option<T> = None | Some(value: T)

  /** The outcome of an operation that either yields a value or fails with an error.
      Failure-compatible, so `:-` propagates the first error. */
  datatype Result<T, E> = Ok(value: T) | Err(error: E) {

    predicate IsFailure() {
      Err?
    }

    function PropagateFailure<U>(): Result<U, E>
      requires Err?
    {
      Err(error)
    }

    function Extract(): T
      requires Ok?
    {
      value
    }
  }
}

=== FILE: values.dfy ===
/** The values a flattened App record (a Python dict) can hold. */
module Values {

  datatype Value =
    | Null
    | Bool(b: bool)
    | Int(i: int)
    | Str(s: string)
    | Obj(fields: map<string, Value>)

  /** Python truthiness: `None`, `False`, `0`, `""` and `{}` are false. */
  predicate Falsy(v: Value) {
    match v
    case Null => true
    case Bool(b) => !b
    case Int(i) => i == 0
    case Str(s) => s == ""
    case Obj(fields) => fields == map[]
  }

  /** A keyword-argument mapping, keyed by field name. */
  type Dict = map<string, Value>
}
